=== FILE: README.md ===
# WeatherDesk: desktop detection, wallpaper dispatch and file naming in Dafny

WeatherDesk switches the desktop wallpaper to an image named after the current
weather and time of day. This project models its decision logic as pure Dafny
functions and proves properties about them. The logic comes from two files.

- `Desktop.py`
  - `get_desktop_environment` classifies the host into a desktop tag. It uses
    an ordered first-match list over the platform string, `DESKTOP_SESSION`,
    `KDE_FULL_SESSION`, `GNOME_DESKTOP_SESSION_ID` and a process probe.
  - `set_wallpaper` picks a branch for that tag. The model gives the external
    calls the branch makes, in order, and the boolean it returns.
  - `get_config_dir` chooses the configuration directory by precedence.
- `WeatherDesk.py`
  - `get_time_of_day` maps the hour to a label. There are three detail levels.
  - `get_weather_summary` and `get_file_name` classify the weather phrase by
    keyword and build the image's file name.
  - `check_if_all_files_exist` builds the list of required files and looks
    each one up.
  - The `--format` argument is normalised to a dotted extension.

Ambient inputs become explicit parameters:
- the platform string (`sys.platform`);
- the environment (a `map<string, string>`);
- the home directory;
- the clock hour;
- the process probe `is_running`, an uninterpreted `string -> bool`;
- the file-existence test `os.path.isfile`, also a `string -> bool`.

The host facts that `set_wallpaper` depends on are fields of `Dispatch.Host`:
- `raises`: whether a given external call raises;
- `firstRun`: the value of `first_run`, or None when that name is unbound;
- `hasAppscript`: whether `appscript` can be imported.

Modules:
- `Strings` (strings.dfy): ASCII lower-casing, `startswith`, substring
  (`in`), and POSIX `os.path.join`.
- `Desktop` (desktop.dfy): the `DesktopEnv` tag, `Classify`, `ConfigDir`.
- `Dispatch` (dispatch.dfy): `Apply` and `SetWallpaper`.
- `WeatherDesk` (weather_desk.dfy): time of day, summary, file names, required
  files, format.

The model follows `Desktop.py` as written, including three names that the file
never defines:
- `Gio` is never imported. The gnome/unity/cinnamon branch therefore always
  falls through its inner handler to the `gsettings` command.
- `first_run` is read by the xfce4 and razor-qt branches but never bound.
  `Host.firstRun == None` stands for that case: the NameError reaches the
  outer handler and `set_wallpaper` returns False. `Some(b)` models a caller
  that binds it.
- `configparser` is never imported. The razor-qt rewrite on a first run fails
  with a NameError before it touches any file.

Behaviour of the code worth knowing:
- The code reads only `DESKTOP_SESSION`. It does not read
  `XDG_CURRENT_DESKTOP`, does not strip an `x-` prefix, and has no lxqt,
  awesome or i3 handling. So `X-Cinnamon` is not read as cinnamon.
- Only the prefix `ubuntu` maps to unity. `unity` itself is one of the known
  session names.
- A set `GNOME_DESKTOP_SESSION_ID` that contains `deprecated` ends detection
  with `unknown`. The process probes are skipped in that case.
- The xfce4 branch does not enumerate properties. On a first run it sets three
  fixed `monitor0` properties and then reloads. Otherwise it only reloads.
- Tool failures are not all reported. A failing `fbsetbg` is swallowed and the
  function returns True. KDE returns True without doing anything.
- The modelled dispatch (Desktop.py:98-275) depends only on the desktop name,
  the image path and the host. Given the same three, it makes the same calls
  and returns the same boolean.

## Model

| member | source | states |
|---|---|---|
| Desktop.Classify | Desktop.py:12-61 | The result is never `kde3` or `enlightenment`. It is `windows` exactly on win32/cygwin and `mac` exactly on darwin, whatever the environment says. |
| Desktop.SessionTag | Desktop.py:24-46 | A lower-cased session equal to one of the 14 known names yields the tag with exactly that name. Any tag it yields is neither `unknown` nor a tag outside the classifier's range. |
| Desktop.KnownSessionUnchanged | Desktop.py:20-29 | On a Unix platform, a `DESKTOP_SESSION` whose lower-cased form is a known name is returned as that lower-cased name, whatever the other variables and probes say. |
| Desktop.SessionRenamings | Desktop.py:36-46 | For an unknown session the renaming rules apply in order, and each fires only when every earlier one failed: xfce/xubuntu, then ubuntu, lubuntu, kubuntu, razor, wmaker. When none fires, the fallback signals decide. |
| Desktop.XubuntuIsXfce | Desktop.py:36-38 | Any session that starts with `xubuntu`, in any case, gives xfce4 and never unity. |
| Desktop.KdeFullSessionFirst | Desktop.py:48-50 | When the session says nothing, `KDE_FULL_SESSION=true` gives kde. This holds whatever the GNOME id and the probes say. |
| Desktop.GnomeSessionId | Desktop.py:52-56 | A set GNOME session id gives gnome2, or unknown if it contains `deprecated`. In both cases the result does not depend on the process probe. |
| Desktop.ProbesLast | Desktop.py:52-61 | Two different probes can change the result only when the session, KDE and GNOME signals are all silent. The result is then xfce4 if `xfce-mcs-manage` runs, else kde if `ksmserver` runs, else unknown. |
| Desktop.Fallback | Desktop.py:48-61 | The fallback chain yields only kde, gnome2, xfce4 or unknown. `KDE_FULL_SESSION=true` forces kde, and kde otherwise needs `ksmserver` running. Gnome2 needs a set GNOME id. Xfce4 needs `xfce-mcs-manage` running and no GNOME id. |
| Desktop.NothingDetected | Desktop.py:48-61 | With no desktop variable set and no session process running, the result on a Unix platform is unknown. |
| Desktop.NameRoundTrip | Desktop.py:14-61 | Every tag's name reads back to the same tag, so no two tags share a name. |
| Desktop.ConfigDir | Desktop.py:277-300 | The result is `XDG_CONFIG_HOME` joined with the app name when that variable is present, even if empty. Otherwise it is `APPDATA` joined with the name, and failing both `~/.config` joined with the name. |
| Desktop.XdgOverAppData | Desktop.py:279-285 | Once `XDG_CONFIG_HOME` is present, adding, changing or removing `APPDATA` does not change the result. |
| Desktop.HomeOnlyAsFallback | Desktop.py:287-296 | The home directory affects the result only when neither variable is set. |
| Desktop.ConfigDirBelowBase | Desktop.py:298-300 | For a relative app name, the result starts with the chosen base and ends with the app name. |
| Desktop.ConfigDirDefault | Desktop.py:294-298 | With neither variable set and an ordinary home, the result is `home + "/.config/" + app`. |
| Dispatch.RunAll | Desktop.py:98-275 | Calls run in order inside the outer `try`. The result is True exactly when no call raises, and then every call was attempted. Otherwise the calls attempted are a prefix of the list, and it ends with the first call that raises. |
| Dispatch.Apply | Desktop.py:98-275 | A tag is reported unsupported exactly when it is `unknown`. A NameError failure happens exactly for xfce4 with `first_run` unbound, and for razor-qt unless `first_run` is bound to False. Razor-qt returns True exactly in that last case. Any other failure names the last call attempted, and that call raises on this host. |
| Dispatch.MateBranch | Desktop.py:117-127 | The MATE branch fails only when a call raises, and the failure names the last call attempted. |
| Dispatch.XfceBranch | Desktop.py:156-166 | xfce4 fails with a NameError, making no call, exactly when `first_run` is unbound. Every other failure is a raising call, the last one attempted. The calls attempted are then a prefix of the xfce4 list, in order, and only the last of them raises. |
| Dispatch.RazorBranch | Desktop.py:168-200 | razor-qt makes no external call. It returns True exactly when `first_run` is bound to False, and every failure is a NameError. |
| Dispatch.SingleCallBranch | Desktop.py:100-262 | Each one-call branch attempts exactly its call. It returns True exactly when that call does not raise, and otherwise fails naming that call. |
| Dispatch.MateSucceeds | Desktop.py:117-127 | MATE returns True exactly when the gsettings call or the legacy call goes through. |
| Dispatch.XfceSucceeds | Desktop.py:156-166 | With `first_run` bound, xfce4 returns True exactly when none of its calls raises. It then attempted all of them, in order. |
| Dispatch.SetWallpaper | Desktop.py:100-267 | A name without a branch returns False and issues no call. Unsupported is reported exactly for such names, and True is only returned for a name that has a branch. |
| Dispatch.BranchesAreTags | Desktop.py:100-262 | The names with a branch are exactly the names of the tags other than `unknown`. |
| Dispatch.ClassifiedHasBranch | Desktop.py:92-267 | Every tag the classifier returns, other than `unknown`, has a branch and is never reported unsupported. |
| Dispatch.UnknownFails | Desktop.py:263-267 | `unknown` returns False and makes no external call. |
| Dispatch.KdeDoesNothing | Desktop.py:134 | `kde` returns True and makes no external call. |
| Dispatch.FbsetbgShared | Desktop.py:202-212 | fluxbox, jwm, openbox and afterstep all make the single call `fbsetbg <path>` and return True, even when it fails. |
| Dispatch.MateFallback | Desktop.py:117-127 | MATE first tries `gsettings ... org.mate.background picture-filename`. When that call does not raise it is the only call. When it raises, exactly one more call follows, the legacy `mateconftool-2` call. |
| Dispatch.XfceReloads | Desktop.py:156-166 | A successful xfce4 dispatch had `first_run` bound, and its last call is `xfdesktop --reload`. |
| Dispatch.SuccessCarriesFile | Desktop.py:100-262 | Every successful branch hands the image path to some call. The exceptions are kde, razor-qt, and xfce4 when it is not a first run. |
| WeatherDesk.TimeOfDay | WeatherDesk.py:218-283 | Morning occurs only at level 4 and evening only at levels 3 and 4. Night holds exactly for hours before 6 or from 20 on, at every level. |
| WeatherDesk.Level3Bands | WeatherDesk.py:243-255 | At level 3, hours 6-16 are day, 17-19 evening, and all others night. |
| WeatherDesk.Level4RefinesLevel3 | WeatherDesk.py:243-273 | Level 4 differs from level 3 exactly at hours 6-7, where it says morning instead of day. |
| WeatherDesk.OtherLevelsDayNight | WeatherDesk.py:275-283 | Any level other than 3 or 4 gives day for hours 6-19 and night otherwise. |
| WeatherDesk.TimeOfDayExpected | WeatherDesk.py:320-332 | For every level and hour, the label chosen is in that level's `daytime` list. |
| WeatherDesk.DaytimeReached | WeatherDesk.py:320-332 | Every label in a level's `daytime` list is chosen at some hour between 0 and 23. |
| WeatherDesk.SummaryOf | WeatherDesk.py:287-303 | The summary is always one of the six required stems. Unless it is `normal`, it is the key of a table entry that has a keyword in the phrase. |
| WeatherDesk.FirstMatchIndex | WeatherDesk.py:293-303 | On any table, the first-match result is the key of the lowest-index entry with a keyword in the phrase. If no entry has one, the result is `normal`. |
| WeatherDesk.SummaryFirstMatch | WeatherDesk.py:287-303 | The summary is the first of rain, wind, thunder, snow, cloudy that has a keyword in the phrase. It is `normal` exactly when no keyword occurs, and it is always one of the six required stems. |
| WeatherDesk.BreezyIsWind | WeatherDesk.py:287-301 | `breezy` gives wind, through the stem `breez`. |
| WeatherDesk.ThunderAndRainIsRain | WeatherDesk.py:287-301 | `thunder and rain` gives rain, because rain is tested first. |
| WeatherDesk.GetWeatherSummary | WeatherDesk.py:293-303 | The nested loop over entries and keywords returns the same summary as the first-match definition. |
| WeatherDesk.FileName | WeatherDesk.py:305-311 | Without time the name is the summary plus the format. With time it is the time-of-day label, a dash, the summary and the format. It always ends with the format. |
| WeatherDesk.PrefixedAt | WeatherDesk.py:334-338 | In the product list, the entry at position i × (number of stems) + j is moment i, a dash, then stem j. This is moment-major order. |
| WeatherDesk.PrefixedMembers | WeatherDesk.py:334-338 | Every entry of the product list is some moment's name, a dash, and some stem. |
| WeatherDesk.RequiredFiles | WeatherDesk.py:318-338 | Without time the list is the six stems. With time it has 6 entries per daytime label of the level. |
| WeatherDesk.RequiredFilesShape | WeatherDesk.py:318-338 | Without time the list is exactly the six stems. With time it has 6 entries per daytime label, in moment-major order. |
| WeatherDesk.FileNameRequired | WeatherDesk.py:305-311 | For every phrase, time flag, level and hour, the file name chosen is a required stem plus the format, for the same flag and level. |
| WeatherDesk.ChosenPathChecked | WeatherDesk.py:378-381 | The path the main loop passes on is one of the paths the startup check looked up. |
| WeatherDesk.LookUpAll | WeatherDesk.py:340-350 | `missing` is the list of paths `dir/stem+format` that do not exist, in the order of the stems, one entry per missing stem. That is the order in which they are written to stderr. The result is True exactly when every path exists, which is exactly when `missing` is empty. |
| WeatherDesk.MissingPathsMembers | WeatherDesk.py:340-348 | The ordered list of missing paths holds exactly the paths that do not exist. It is no longer than the list of stems, and it is empty exactly when every path exists. |
| WeatherDesk.CheckIfAllFilesExist | WeatherDesk.py:314-350 | The result is True exactly when every required file exists in `dir`. The paths reported are those of the missing required files, in the order of the required list. |
| WeatherDesk.NormaliseFormat | WeatherDesk.py:197-207 | The result always starts with `.`. It is `.jpg` when no format, or an empty one, is given. Otherwise it equals the given format exactly when that starts with `.`, it always ends with the given format, and it is at most one character longer, so an undotted format gains exactly one leading dot. |
| WeatherDesk.NormaliseIdempotent | WeatherDesk.py:197-203 | Normalising an already normalised format leaves it unchanged. |

## Left out

- Network and JSON: the ipinfo and Yahoo queries and the parsing of their replies (WeatherDesk.py:98-172, 363-403) are I/O.
- WeatherDesk.py:138-148 is an unresolved merge conflict. Both sides compute the same boolean, and it belongs to the network code above. The conflict markers are not valid Python, so the script as written does not compile: the main-loop facts (`WeatherDesk.ChosenPathChecked` and the startup check) describe the loop as its authors wrote it, with the conflict resolved either way.
- Script plumbing is not modelled: argument parsing, the `--naming` help text, the `wait_time` default, the infinite polling loop and `time.sleep`. `datetime.now()` becomes the `hour` parameter.
- `os.path.isfile` is the `isFile` parameter. The messages written to stderr are not modelled beyond the list of missing paths.
- `is_running` is the `running` parameter. Its `ps`/`tasklist` spawning and regular-expression scan (Desktop.py:63-79) are left out.
- Desktop.ProbesLast: treats the process probe as a predicate that always returns. Under Python 3, `is_running` as written raises instead. It passes a byte line from `ps` to `re.search` with a str pattern, which is a TypeError. With neither `ps` nor `tasklist` present, it raises FileNotFoundError. Detection runs at Desktop.py:92, outside the `try`, so such an exception would escape `set_wallpaper`; as written the start of `set_wallpaper` already raises before that line (see `Dispatch.SetWallpaper` below).
- Desktop.NothingDetected: the same assumption. Under Python 3, a run that reaches the probes raises instead of returning unknown.
- The start of `set_wallpaper` (Desktop.py:83-96) is left out: the unbound `args` reference, the directory creation, the `open` of the background file, and the copy of the image. The dispatch takes the path of the copy as its input.
- Dispatch.SetWallpaper: does not model that the start of `set_wallpaper` raises on every call, outside the `try`, so that as written the dispatch at Desktop.py:98-275 is never reached.
  - Desktop.py:85 tests `path.isdir` on the unexpanded `'~/Pictures/WeatherDesk/'`. That is false unless the working directory holds a directory named `~`. The line then calls `os.mkdir` on the expanded path, which raises FileExistsError on every call after the first.
  - Desktop.py:3 is `from os import *`, which binds `open` to `os.open`. Desktop.py:87 then calls `open(<path>, 'w')`, and `os.open` needs integer flags, so it raises TypeError on every call, the first included.
- The messages `set_wallpaper` writes to stderr (Desktop.py:211-212, 265, 273) are left out. Only the returned boolean and the calls are modelled.
- The effects of the external calls are left out. `Action` values record the `Popen` argument lists and shell lines, the `SystemParametersInfoA` arguments and the Finder call.
- The razor-qt configuration rewrite (Desktop.py:172-198) is left out. It is unreachable as written, because `configparser` is unbound.
- The `xdg.BaseDirectory` import in `get_config_dir` is left out. When `XDG_CONFIG_HOME` is unset it yields `~/.config`, the same as the fallback.
- The call at WeatherDesk.py:380 passes one argument to the two-parameter `set_wallpaper`. That cross-file call is not modelled.
- Desktop.ConfigDir: joins paths with POSIX `os.path.join` in every branch. The `APPDATA` branch is the Windows case, where `os.path` is `ntpath`, with backslash separators and drive letters.
- Desktop.Classify: lower-casing covers ASCII letters only, whereas Python's `str.lower` maps every Unicode letter.
- WeatherDesk.TimeOfDay: accepts any integer hour. `datetime` only produces 0-23, and the bands are stated for all integers.
- WeatherDesk.SummaryOf: the keyword strings of `summaries` are written already split at whitespace, instead of modelling `str.split`. The first-match order is the dict's insertion order, which Python guarantees only from 3.7 on; earlier versions may iterate string keys in an order that changes per process.

=== FILE: desktop.dfy ===
/**
  Desktop-environment classification (`get_desktop_environment`) and the
  configuration-directory rule (`get_config_dir`) of Desktop.py.

  The ambient state the source reads is passed in explicitly: the platform
  string (`sys.platform`), the process environment as a map, the user's home
  directory (`path.expanduser('~')`), and the process probe `is_running` as an
  uninterpreted predicate over process names.
 */
module Desktop {
  import opened Strings

  /** Every desktop tag the source names, with the string it uses for it. */
  datatype DesktopEnv =
    | Windows | Mac
    | Gnome | Unity | Cinnamon | Mate | Gnome2
    | Kde | Kde3 | Trinity
    | Xfce4 | RazorQt
    | Fluxbox | Jwm | Openbox | Afterstep
    | Icewm | Blackbox | Lxde | WindowMaker | Enlightenment
    | Unknown
  {
    function Name(): string
    {
      match this
      case Windows => "windows"
      case Mac => "mac"
      case Gnome => "gnome"
      case Unity => "unity"
      case Cinnamon => "cinnamon"
      case Mate => "mate"
      case Gnome2 => "gnome2"
      case Kde => "kde"
      case Kde3 => "kde3"
      case Trinity => "trinity"
      case Xfce4 => "xfce4"
      case RazorQt => "razor-qt"
      case Fluxbox => "fluxbox"
      case Jwm => "jwm"
      case Openbox => "openbox"
      case Afterstep => "afterstep"
      case Icewm => "icewm"
      case Blackbox => "blackbox"
      case Lxde => "lxde"
      case WindowMaker => "windowmaker"
      case Enlightenment => "enlightenment"
      case Unknown => "unknown"
    }
  }

  /** The tag a name stands for, if any; the inverse of `Name`. */
  function FromName(s: string): (r: Option<DesktopEnv>)
    ensures r.Some? ==> r.value.Name() == s
  {
    if s == "windows" then Some(Windows)
    else if s == "mac" then Some(Mac)
    else if s == "gnome" then Some(Gnome)
    else if s == "unity" then Some(Unity)
    else if s == "cinnamon" then Some(Cinnamon)
    else if s == "mate" then Some(Mate)
    else if s == "gnome2" then Some(Gnome2)
    else if s == "kde" then Some(Kde)
    else if s == "kde3" then Some(Kde3)
    else if s == "trinity" then Some(Trinity)
    else if s == "xfce4" then Some(Xfce4)
    else if s == "razor-qt" then Some(RazorQt)
    else if s == "fluxbox" then Some(Fluxbox)
    else if s == "jwm" then Some(Jwm)
    else if s == "openbox" then Some(Openbox)
    else if s == "afterstep" then Some(Afterstep)
    else if s == "icewm" then Some(Icewm)
    else if s == "blackbox" then Some(Blackbox)
    else if s == "lxde" then Some(Lxde)
    else if s == "windowmaker" then Some(WindowMaker)
    else if s == "enlightenment" then Some(Enlightenment)
    else if s == "unknown" then Some(Unknown)
    else None
  }

  /** Names are distinct: reading a tag's name back gives the same tag. */
  lemma NameRoundTrip(t: DesktopEnv)
    ensures FromName(t.Name()) == Some(t)
  {
  }

  /** The DESKTOP_SESSION values that are returned unchanged (after lower-casing). */
  const KnownSessions: seq<string> :=
    ["gnome", "unity", "cinnamon", "mate", "xfce4", "lxde", "fluxbox",
     "blackbox", "openbox", "icewm", "jwm", "afterstep", "trinity", "kde"]

  /** The tags `Classify` can return; `kde3` and `enlightenment` are not among them. */
  predicate Classifiable(t: DesktopEnv)
  {
    t != Kde3 && t != Enlightenment
  }

  /**
    Reading of a lower-cased DESKTOP_SESSION value: a known session name,
    then the distribution-specific renamings in order, first match wins.
    None means the value says nothing and detection falls through.
   */
  function SessionTag(d: string): (r: Option<DesktopEnv>)
    ensures d in KnownSessions ==> r.Some? && r.value.Name() == d
    ensures r.Some? ==> Classifiable(r.value) && r.value != Unknown
  {
    if d in KnownSessions then FromName(d)
    else if Contains(d, "xfce") || StartsWith(d, "xubuntu") then Some(Xfce4)
    else if StartsWith(d, "ubuntu") then Some(Unity)
    else if StartsWith(d, "lubuntu") then Some(Lxde)
    else if StartsWith(d, "kubuntu") then Some(Kde)
    else if StartsWith(d, "razor") then Some(RazorQt)
    else if StartsWith(d, "wmaker") then Some(WindowMaker)
    else None
  }

  /** `os.environ.get(key) == value`: absent keys compare unequal. */
  predicate EnvIs(env: map<string, string>, key: string, value: string)
  {
    key in env && env[key] == value
  }

  /** Truthiness of `os.environ.get(key)`: present and non-empty. */
  predicate EnvSet(env: map<string, string>, key: string)
  {
    key in env && env[key] != ""
  }

  /** The session reading, when DESKTOP_SESSION is present. */
  function SessionReading(env: map<string, string>): Option<DesktopEnv>
  {
    if "DESKTOP_SESSION" in env then SessionTag(Lower(env["DESKTOP_SESSION"])) else None
  }

  /**
    The fallback signals, consulted when DESKTOP_SESSION is absent or says
    nothing: KDE_FULL_SESSION, then GNOME_DESKTOP_SESSION_ID, then the
    process probes. The GNOME test and the probes sit in one `elif` chain, so
    a set GNOME id that mentions `deprecated` ends detection with `unknown`.
   */
  function Fallback(env: map<string, string>, running: string -> bool): (r: DesktopEnv)
    ensures r in {Kde, Gnome2, Xfce4, Unknown}
    ensures EnvIs(env, "KDE_FULL_SESSION", "true") ==> r == Kde
    ensures r == Kde ==> EnvIs(env, "KDE_FULL_SESSION", "true") || running("ksmserver")
    ensures r == Gnome2 ==> EnvSet(env, "GNOME_DESKTOP_SESSION_ID")
    ensures r == Xfce4 ==> running("xfce-mcs-manage") && !EnvSet(env, "GNOME_DESKTOP_SESSION_ID")
  {
    if EnvIs(env, "KDE_FULL_SESSION", "true") then Kde
    else if EnvSet(env, "GNOME_DESKTOP_SESSION_ID") then
      (if !Contains(env["GNOME_DESKTOP_SESSION_ID"], "deprecated") then Gnome2 else Unknown)
    else if running("xfce-mcs-manage") then Xfce4
    else if running("ksmserver") then Kde
    else Unknown
  }

  predicate IsWindowsPlatform(platform: string)
  {
    platform == "win32" || platform == "cygwin"
  }

  /** `get_desktop_environment`: an ordered first-match rule list. */
  function Classify(platform: string, env: map<string, string>, running: string -> bool): (r: DesktopEnv)
    ensures Classifiable(r)
    ensures r == Windows <==> IsWindowsPlatform(platform)
    ensures r == Mac <==> platform == "darwin"
  {
    if IsWindowsPlatform(platform) then Windows
    else if platform == "darwin" then Mac
    else
      match SessionReading(env)
      case Some(t) => t
      case None => Fallback(env, running)
  }

  /** A Unix-like platform whose DESKTOP_SESSION, if present, says nothing. */
  predicate SessionSilent(platform: string, env: map<string, string>)
  {
    !IsWindowsPlatform(platform) && platform != "darwin" && SessionReading(env).None?
  }

  /** A known DESKTOP_SESSION value, in any case, is returned lower-cased and unchanged. */
  lemma KnownSessionUnchanged(platform: string, env: map<string, string>, running: string -> bool)
    requires !IsWindowsPlatform(platform) && platform != "darwin"
    requires "DESKTOP_SESSION" in env && Lower(env["DESKTOP_SESSION"]) in KnownSessions
    ensures Classify(platform, env, running).Name() == Lower(env["DESKTOP_SESSION"])
  {
  }

  /**
    The renaming rules for a DESKTOP_SESSION that is not a known name, in
    their order: each rule applies exactly when every earlier one failed.
   */
  lemma SessionRenamings(platform: string, env: map<string, string>, running: string -> bool)
    requires !IsWindowsPlatform(platform) && platform != "darwin"
    requires "DESKTOP_SESSION" in env && Lower(env["DESKTOP_SESSION"]) !in KnownSessions
    ensures var d := Lower(env["DESKTOP_SESSION"]);
            var r := Classify(platform, env, running);
            var xfce := Contains(d, "xfce") || StartsWith(d, "xubuntu");
            && (xfce ==> r == Xfce4)
            && (!xfce && StartsWith(d, "ubuntu") ==> r == Unity)
            && (!xfce && !StartsWith(d, "ubuntu") && StartsWith(d, "lubuntu") ==> r == Lxde)
            && ((!xfce && !StartsWith(d, "ubuntu") && !StartsWith(d, "lubuntu")
                 && StartsWith(d, "kubuntu")) ==> r == Kde)
            && ((!xfce && !StartsWith(d, "ubuntu") && !StartsWith(d, "lubuntu")
                 && !StartsWith(d, "kubuntu") && StartsWith(d, "razor")) ==> r == RazorQt)
            && ((!xfce && !StartsWith(d, "ubuntu") && !StartsWith(d, "lubuntu")
                 && !StartsWith(d, "kubuntu") && !StartsWith(d, "razor")
                 && StartsWith(d, "wmaker")) ==> r == WindowMaker)
            && ((!xfce && !StartsWith(d, "ubuntu") && !StartsWith(d, "lubuntu")
                 && !StartsWith(d, "kubuntu") && !StartsWith(d, "razor")
                 && !StartsWith(d, "wmaker")) ==> r == Fallback(env, running))
  {
  }

  /**
    A session starting with `xubuntu`, in any case, is read as xfce4 and never
    as unity: the xfce rule comes before the `ubuntu` prefix rule.
   */
  lemma XubuntuIsXfce(platform: string, env: map<string, string>, running: string -> bool)
    requires !IsWindowsPlatform(platform) && platform != "darwin"
    requires "DESKTOP_SESSION" in env && StartsWith(Lower(env["DESKTOP_SESSION"]), "xubuntu")
    ensures Classify(platform, env, running) == Xfce4
  {
    var d := Lower(env["DESKTOP_SESSION"]);
    assert d[0] == 'x' && d[1] == 'u';
    assert d !in KnownSessions;
  }

  /** When DESKTOP_SESSION says nothing, KDE_FULL_SESSION=true wins over every later signal. */
  lemma KdeFullSessionFirst(platform: string, env: map<string, string>, running: string -> bool)
    requires SessionSilent(platform, env)
    requires EnvIs(env, "KDE_FULL_SESSION", "true")
    ensures Classify(platform, env, running) == Kde
  {
  }

  /**
    A set GNOME session id gives gnome2 unless it mentions `deprecated`, in
    which case the result is unknown; either way no process is probed.
   */
  lemma GnomeSessionId(platform: string, env: map<string, string>, running: string -> bool, other: string -> bool)
    requires SessionSilent(platform, env)
    requires !EnvIs(env, "KDE_FULL_SESSION", "true") && EnvSet(env, "GNOME_DESKTOP_SESSION_ID")
    ensures Classify(platform, env, running) ==
            (if Contains(env["GNOME_DESKTOP_SESSION_ID"], "deprecated") then Unknown else Gnome2)
    ensures Classify(platform, env, running) == Classify(platform, env, other)
  {
  }

  /**
    The process probe is consulted only as the last resort: two probes can
    lead to different answers only when every earlier signal is silent, and
    then the xfce probe is asked before the KDE one.
   */
  lemma ProbesLast(platform: string, env: map<string, string>, running: string -> bool, other: string -> bool)
    ensures Classify(platform, env, running) != Classify(platform, env, other) ==>
            && SessionSilent(platform, env)
            && !EnvIs(env, "KDE_FULL_SESSION", "true")
            && !EnvSet(env, "GNOME_DESKTOP_SESSION_ID")
    ensures SessionSilent(platform, env) && !EnvIs(env, "KDE_FULL_SESSION", "true")
            && !EnvSet(env, "GNOME_DESKTOP_SESSION_ID") ==>
            Classify(platform, env, running) ==
            (if running("xfce-mcs-manage") then Xfce4 else if running("ksmserver") then Kde else Unknown)
  {
  }

  /** With no desktop hint in the environment and no session process running, the result is unknown. */
  lemma NothingDetected(platform: string, env: map<string, string>, running: string -> bool)
    requires !IsWindowsPlatform(platform) && platform != "darwin"
    requires "DESKTOP_SESSION" !in env && "KDE_FULL_SESSION" !in env && "GNOME_DESKTOP_SESSION_ID" !in env
    requires !running("xfce-mcs-manage") && !running("ksmserver")
    ensures Classify(platform, env, running) == Unknown
  {
  }

  /**
    `get_config_dir`: the base directory is XDG_CONFIG_HOME if set (even to
    the empty string), else APPDATA, else `~/.config`; the application name
    is joined onto it.
   */
  function ConfigBase(env: map<string, string>, home: string): string
  {
    if "XDG_CONFIG_HOME" in env then env["XDG_CONFIG_HOME"]
    else if "APPDATA" in env then env["APPDATA"]
    else PathJoin(home, ".config")
  }

  function ConfigDir(appName: string, env: map<string, string>, home: string): (r: string)
    ensures "XDG_CONFIG_HOME" in env ==> r == PathJoin(env["XDG_CONFIG_HOME"], appName)
    ensures "XDG_CONFIG_HOME" !in env && "APPDATA" in env ==> r == PathJoin(env["APPDATA"], appName)
    ensures "XDG_CONFIG_HOME" !in env && "APPDATA" !in env ==>
            r == PathJoin(PathJoin(home, ".config"), appName)
  {
    PathJoin(ConfigBase(env, home), appName)
  }

  /** XDG_CONFIG_HOME takes precedence: once it is set, APPDATA is irrelevant. */
  lemma XdgOverAppData(appName: string, env: map<string, string>, home: string, appData: string)
    requires "XDG_CONFIG_HOME" in env
    ensures ConfigDir(appName, env["APPDATA" := appData], home) == ConfigDir(appName, env, home)
    ensures ConfigDir(appName, env - {"APPDATA"}, home) == ConfigDir(appName, env, home)
  {
  }

  /** The home directory matters only when neither variable is set. */
  lemma HomeOnlyAsFallback(appName: string, env: map<string, string>, home: string, home': string)
    ensures ConfigDir(appName, env, home) != ConfigDir(appName, env, home') ==>
            "XDG_CONFIG_HOME" !in env && "APPDATA" !in env
  {
  }

  /** A relative application name lands directly below the chosen base. */
  lemma ConfigDirBelowBase(appName: string, env: map<string, string>, home: string)
    requires !StartsWith(appName, "/")
    ensures var r := ConfigDir(appName, env, home);
            StartsWith(r, ConfigBase(env, home)) && EndsWith(r, appName)
  {
  }

  /** With neither variable set, the directory is `~/.config/<app>`. */
  lemma ConfigDirDefault(appName: string, env: map<string, string>, home: string)
    requires "XDG_CONFIG_HOME" !in env && "APPDATA" !in env
    requires home != "" && !EndsWith(home, "/") && !StartsWith(appName, "/")
    ensures ConfigDir(appName, env, home) == home + "/.config/" + appName
  {
    var base := home + "/" + ".config";
    assert PathJoin(home, ".config") == base;
    assert base[|base| - 1] == 'g';
    assert !EndsWith(base, "/");
    assert PathJoin(base, appName) == base + "/" + appName;
    assert base + "/" + appName == home + "/.config/" + appName;
  }
}

=== FILE: dispatch.dfy ===
/**
  The branch selection of `set_wallpaper` (Desktop.py): for a desktop name
  and the absolute path of the image to show, which external calls are made,
  in which order, and what boolean the function returns.

  The calls are recorded, not performed. Whether an external call raises is a
  property of the host, given as the oracle `Host.raises`; the other ambient facts the branches
  depend on are fields of `Host` too.
 */
module Dispatch {
  import opened Strings
  import opened Desktop

  /** One external call made by `set_wallpaper`. */
  datatype Action =
    | Spawn(argv: seq<string>)                 // subprocess.Popen(list)
    | ShellLine(line: string)                  // subprocess.Popen(str, shell=True)
    | SystemParametersInfo(uiAction: int, uiParam: int, pvParam: string, winIni: int)  // ctypes, user32
    | FinderDesktopPicture(file: string)       // appscript: Finder's desktop picture

  /**
    The host as the branches see it.
    - `raises(a)`: performing `a` raises (a missing executable for `Spawn`, a
      failing foreign call, ...).
    - `firstRun`: the value of the `first_run` name read by the xfce4 and
      razor-qt branches; None when the name is unbound, as it is in Desktop.py.
    - `hasAppscript`: `from appscript import ...` succeeds.
   */
  datatype Host = Host(raises: Action -> bool, firstRun: Option<bool>, hasAppscript: bool)

  /** Why `set_wallpaper` returns False. */
  datatype Failure =
    | Unsupported              // no branch for this desktop name
    | NameUnbound(name: string) // a NameError inside the outer `try`
    | Raised(action: Action)   // an external call raised and no inner handler caught it

  datatype Status = Done | Failed(reason: Failure)

  /** The calls attempted, in order, and how the dispatch ended. */
  datatype Outcome = Outcome(attempted: seq<Action>, status: Status)
  {
    /** The boolean `set_wallpaper` returns. */
    predicate Returned() { status.Done? }
  }

  /** Names with a branch of their own; any other name reaches the final `else`. */
  const Branches: set<string> :=
    {"gnome", "unity", "cinnamon", "mate", "gnome2", "kde", "kde3", "trinity",
     "xfce4", "razor-qt", "fluxbox", "jwm", "openbox", "afterstep", "icewm",
     "blackbox", "lxde", "windowmaker", "enlightenment", "windows", "mac"}

  /** The names whose branch runs `fbsetbg`. */
  const FbsetbgGroup: set<string> := {"fluxbox", "jwm", "openbox", "afterstep"}

  /**
    Attempts the calls in order inside the outer `try`: the first one that
    raises ends the dispatch with False and nothing after it is attempted.
   */
  function RunAll(acts: seq<Action>, host: Host): (r: Outcome)
    ensures r.status.Done? <==> forall i :: 0 <= i < |acts| ==> !host.raises(acts[i])
    ensures r.status.Done? ==> r.attempted == acts
    ensures r.status.Failed? ==>
            && 0 < |r.attempted| <= |acts|
            && r.attempted == acts[..|r.attempted|]
            && r.status.reason == Raised(r.attempted[|r.attempted| - 1])
            && host.raises(r.attempted[|r.attempted| - 1])
            && forall i :: 0 <= i < |r.attempted| - 1 ==> !host.raises(r.attempted[i])
    decreases |acts|
  {
    if acts == [] then Outcome([], Done)
    else if host.raises(acts[0]) then Outcome([acts[0]], Failed(Raised(acts[0])))
    else
      var rest := RunAll(acts[1..], host);
      Outcome([acts[0]] + rest.attempted, rest.status)
  }

  /** The AppleScript run through the shell when appscript cannot be imported. */
  function MacScript(file: string): string
  {
    "/usr/bin/osascript<<END\n"
    + "               tell application 'Finder' to\n"
    + "               set desktop picture to POSIX file '" + file + "'\n"
    + "               end tell\n"
    + "               END"
  }

  /** `xfconf-query -c xfce4-desktop -p <property> -s <value>` */
  function XfconfSet(property: string, value: string): Action
  {
    Spawn(["xfconf-query", "-c", "xfce4-desktop", "-p", property, "-s", value])
  }

  /** SPI_SETDESKWALLPAPER, the action code passed to SystemParametersInfoA. */
  const SpiSetDeskWallpaper: int := 20

  /** The single external call of each one-call branch. */
  function GnomeCall(file: string): Action
  {
    Spawn(["gsettings", "set", "org.gnome.desktop.background", "picture-uri", "file://" + file])
  }

  function MateCall(file: string): Action
  {
    Spawn(["gsettings", "set", "org.mate.background", "picture-filename", file])
  }

  function MateLegacyCall(file: string): Action
  {
    Spawn(["mateconftool-2", "-t", "string", "--set", "/desktop/mate/background/picture_filename", file])
  }

  function Gnome2Call(file: string): Action
  {
    Spawn(["gconftool-2", "-t", "string", "--set", "/desktop/gnome/background/picture_filename", file])
  }

  function DcopCall(file: string): Action
  {
    ShellLine("dcop kdesktop KBackgroundIface setWallpaper 0 \"" + file + "\" 6")
  }

  function FbsetbgCall(file: string): Action
  {
    Spawn(["fbsetbg", file])
  }

  function IcewmCall(file: string): Action
  {
    Spawn(["icewmbg", file])
  }

  function BlackboxCall(file: string): Action
  {
    Spawn(["bsetbg", "-full", file])
  }

  function LxdeCall(file: string): Action
  {
    ShellLine("pcmanfm --set-wallpaper " + file + " --wallpaper-mode=scaled")
  }

  function WindowMakerCall(file: string): Action
  {
    ShellLine("wmsetbg -s -u " + file)
  }

  function EnlightenmentCall(file: string): Action
  {
    ShellLine("enlightenment_remote -desktop-bg-add 0 0 0 0 " + file)
  }

  function WindowsCall(file: string): Action
  {
    SystemParametersInfo(SpiSetDeskWallpaper, 0, file, 0)
  }

  /** appscript when it can be imported, otherwise the osascript heredoc through the shell. */
  function MacCall(file: string, hasAppscript: bool): Action
  {
    if hasAppscript then FinderDesktopPicture(file) else ShellLine(MacScript(file))
  }

  /** The xfce4 calls: on a first run the three monitor0 properties, then always the reload. */
  function XfceCalls(file: string, first: bool): seq<Action>
  {
    var reload := Spawn(["xfdesktop", "--reload"]);
    if first then
      [XfconfSet("/backdrop/screen0/monitor0/image-path", file),
       XfconfSet("/backdrop/screen0/monitor0/image-style", "3"),
       XfconfSet("/backdrop/screen0/monitor0/image-show", "true"),
       reload]
    else [reload]
  }

  /** The branches that make exactly one call and report its failure. */
  predicate SingleCall(t: DesktopEnv)
  {
    !(t.Mate? || t.Kde? || t.Xfce4? || t.RazorQt? || t.Fluxbox? || t.Jwm? || t.Openbox?
      || t.Afterstep? || t.Unknown?)
  }

  /** The call of each one-call branch, for the tags in `SingleCall`. */
  function OnlyCall(t: DesktopEnv, file: string, host: Host): Action
    requires SingleCall(t)
  {
    match t
    // Gio is never imported, so the Gio attempt raises NameError, which the
    // inner handler catches before falling back to the gsettings tool.
    case Gnome | Unity | Cinnamon => GnomeCall(file)
    case Gnome2 => Gnome2Call(file)
    case Kde3 | Trinity => DcopCall(file)
    case Icewm => IcewmCall(file)
    case Blackbox => BlackboxCall(file)
    case Lxde => LxdeCall(file)
    case WindowMaker => WindowMakerCall(file)
    case Enlightenment => EnlightenmentCall(file)
    case Windows => WindowsCall(file)
    case Mac => MacCall(file, host.hasAppscript)
  }

  /** MATE: the gsettings call, and the legacy mateconftool-2 call only when it raises. */
  function MateBranch(file: string, host: Host): (r: Outcome)
    ensures r.status.Failed? ==>
            && r.status.reason.Raised?
            && |r.attempted| > 0 && r.status.reason.action == r.attempted[|r.attempted| - 1]
            && host.raises(r.status.reason.action)
  {
    if !host.raises(MateCall(file)) then Outcome([MateCall(file)], Done)
    else
      var legacy := RunAll([MateLegacyCall(file)], host);
      Outcome([MateCall(file)] + legacy.attempted, legacy.status)
  }

  /** xfce4: reading the unbound `first_run` fails before any call is made. */
  function XfceBranch(file: string, host: Host): (r: Outcome)
    ensures r.status.Failed? && r.status.reason.NameUnbound? <==> host.firstRun.None?
    ensures r.status.Failed? && r.status.reason.NameUnbound? ==> r.attempted == []
    ensures r.status.Failed? && !r.status.reason.NameUnbound? ==>
            && r.status.reason.Raised?
            && |r.attempted| > 0 && r.status.reason.action == r.attempted[|r.attempted| - 1]
            && host.raises(r.status.reason.action)
    ensures host.firstRun.Some? && r.status.Failed? ==>
            var calls := XfceCalls(file, host.firstRun.value);
            && 0 < |r.attempted| <= |calls|
            && r.attempted == calls[..|r.attempted|]
            && forall i :: 0 <= i < |r.attempted| - 1 ==> !host.raises(r.attempted[i])
  {
    match host.firstRun
    case None => Outcome([], Failed(NameUnbound("first_run")))
    case Some(first) => RunAll(XfceCalls(file, first), host)
  }

  /**
    razor-qt makes no external call: it fails on the unbound `first_run`, or
    on a first run on the unbound `configparser`, and otherwise returns True.
   */
  function RazorBranch(host: Host): (r: Outcome)
    ensures r.attempted == []
    ensures r.Returned() <==> host.firstRun == Some(false)
    ensures r.status.Failed? ==> r.status.reason.NameUnbound?
  {
    match host.firstRun
    case None => Outcome([], Failed(NameUnbound("first_run")))
    // The first statement of the rewrite builds a parser from the module
    // `configparser`, which Desktop.py never imports.
    case Some(true) => Outcome([], Failed(NameUnbound("configparser")))
    case Some(false) => Outcome([], Done)
  }

  /**
    The branch `set_wallpaper` runs for a desktop tag, from the `try` on, with
    `file` the image path (the copy under ~/Pictures that the source hands to
    every branch). The source compares the desktop name against string
    literals; `SetWallpaper` maps the name to its tag first.
   */
  function Apply(t: DesktopEnv, file: string, host: Host): (r: Outcome)
    ensures r.status == Failed(Unsupported) <==> t == Unknown
    ensures r.status.Failed? && r.status.reason.Raised? ==>
            |r.attempted| > 0 && r.status.reason.action == r.attempted[|r.attempted| - 1]
            && host.raises(r.status.reason.action)
    ensures r.status.Failed? && !r.status.reason.Raised? ==> r.attempted == []
    ensures r.status.Failed? && r.status.reason.NameUnbound? <==>
            (t.Xfce4? && host.firstRun.None?) || (t.RazorQt? && !(host.firstRun == Some(false)))
    ensures t.RazorQt? ==> (r.Returned() <==> host.firstRun == Some(false))
  {
    match t
    case Mate => MateBranch(file, host)
    case Kde => Outcome([], Done)
    case Xfce4 => XfceBranch(file, host)
    case RazorQt => RazorBranch(host)
    // A failure of fbsetbg is reported and swallowed by its own handler.
    case Fluxbox | Jwm | Openbox | Afterstep => Outcome([FbsetbgCall(file)], Done)
    case Unknown => Outcome([], Failed(Unsupported))
    case _ => RunAll([OnlyCall(t, file, host)], host)
  }

  /** `set_wallpaper` for a desktop name: a name with no branch falls to the final `else`. */
  function SetWallpaper(env: string, file: string, host: Host): (r: Outcome)
    ensures env !in Branches ==> r == Outcome([], Failed(Unsupported))
    ensures r.status == Failed(Unsupported) <==> env !in Branches
    ensures r.Returned() ==> env in Branches
  {
    BranchesAreTags(env);
    match FromName(env)
    case None => Outcome([], Failed(Unsupported))
    case Some(t) => Apply(t, file, host)
  }

  /** The branch names are exactly the names of the tags other than unknown. */
  lemma BranchesAreTags(s: string)
    ensures s in Branches <==> FromName(s).Some? && FromName(s).value != Unknown
  {
  }

  /** Every tag the classifier can return, other than unknown, has a branch and is never reported unsupported. */
  lemma ClassifiedHasBranch(platform: string, env: map<string, string>, running: string -> bool,
                            file: string, host: Host)
    ensures Classify(platform, env, running) != Unknown ==>
            && Classify(platform, env, running).Name() in Branches
            && SetWallpaper(Classify(platform, env, running).Name(), file, host).status != Failed(Unsupported)
  {
    var t := Classify(platform, env, running);
    NameRoundTrip(t);
    BranchesAreTags(t.Name());
  }

  /** The classifier's unknown reaches no branch: False, and no external call. */
  lemma UnknownFails(file: string, host: Host)
    ensures SetWallpaper(Unknown.Name(), file, host) == Outcome([], Failed(Unsupported))
    ensures !SetWallpaper(Unknown.Name(), file, host).Returned()
  {
  }

  /** KDE is accepted without any call: the branch is empty. */
  lemma KdeDoesNothing(file: string, host: Host)
    ensures SetWallpaper("kde", file, host) == Outcome([], Done)
  {
  }

  /** fluxbox, jwm, openbox and afterstep share one call, whose failure is swallowed. */
  lemma FbsetbgShared(env: string, file: string, host: Host)
    requires env in FbsetbgGroup
    ensures SetWallpaper(env, file, host) == Outcome([Spawn(["fbsetbg", file])], Done)
  {
    assert env == "fluxbox" || env == "jwm" || env == "openbox" || env == "afterstep";
  }

  /** MATE falls back to the legacy tool exactly when the gsettings call raises. */
  lemma MateFallback(file: string, host: Host)
    ensures var r := SetWallpaper("mate", file, host);
            (|r.attempted| == 2) <==> host.raises(r.attempted[0])
    ensures SetWallpaper("mate", file, host).attempted[0] == MateCall(file)
    ensures host.raises(MateCall(file)) ==>
            SetWallpaper("mate", file, host).attempted == [MateCall(file), MateLegacyCall(file)]
    ensures !host.raises(MateCall(file)) ==> SetWallpaper("mate", file, host).attempted == [MateCall(file)]
  {
  }

  /** The xfce4 branch ends with a desktop reload whenever it succeeds. */
  lemma XfceReloads(file: string, host: Host)
    requires SetWallpaper("xfce4", file, host).Returned()
    ensures var r := SetWallpaper("xfce4", file, host);
            |r.attempted| > 0 && r.attempted[|r.attempted| - 1] == Spawn(["xfdesktop", "--reload"])
    ensures host.firstRun.Some?
  {
  }

  /**
    A one-call branch attempts exactly its call and returns True exactly when
    that call does not raise.
   */
  lemma SingleCallBranch(t: DesktopEnv, file: string, host: Host)
    requires SingleCall(t)
    ensures var c := Carrier(t, file, host);
            Apply(t, file, host)
            == if host.raises(c) then Outcome([c], Failed(Raised(c))) else Outcome([c], Done)
  {
    var c := OnlyCall(t, file, host);
    assert Carrier(t, file, host) == c;
    assert Apply(t, file, host) == RunAll([c], host);
    assert [c][1..] == [];
  }

  /** MATE succeeds exactly when the gsettings call or the legacy call goes through. */
  lemma MateSucceeds(file: string, host: Host)
    ensures Apply(Mate, file, host).Returned()
            <==> !host.raises(MateCall(file)) || !host.raises(MateLegacyCall(file))
  {
  }

  /**
    With `first_run` bound, xfce4 returns True exactly when none of its calls
    raises, and then it attempted all of them.
   */
  lemma XfceSucceeds(file: string, host: Host, first: bool)
    requires host.firstRun == Some(first)
    ensures Apply(Xfce4, file, host).Returned()
            <==> forall i :: 0 <= i < |XfceCalls(file, first)| ==> !host.raises(XfceCalls(file, first)[i])
    ensures Apply(Xfce4, file, host).Returned() ==> Apply(Xfce4, file, host).attempted == XfceCalls(file, first)
  {
  }

  /** An action hands over `file` when the path appears in one of its arguments. */
  predicate Carries(a: Action, file: string)
  {
    match a
    case Spawn(argv) => exists i :: 0 <= i < |argv| && Contains(argv[i], file)
    case ShellLine(line) => Contains(line, file)
    case SystemParametersInfo(_, _, p, _) => p == file
    case FinderDesktopPicture(p) => p == file
  }

  lemma CarriesShell(pre: string, file: string, post: string)
    ensures Carries(ShellLine(pre + file + post), file)
  {
    ContainsInfix(pre, file, post);
  }

  lemma CarriesArg(argv: seq<string>, i: nat, pre: string, file: string)
    requires i < |argv| && argv[i] == pre + file
    ensures Carries(Spawn(argv), file)
  {
    ContainsInfix(pre, file, "");
    assert pre + file + "" == argv[i];
  }

  /** Each shell call that is meant to hand over the image does so. */
  lemma ShellCallsCarry(file: string, hasAppscript: bool)
    ensures Carries(DcopCall(file), file) && Carries(LxdeCall(file), file)
    ensures Carries(WindowMakerCall(file), file) && Carries(EnlightenmentCall(file), file)
    ensures Carries(MacCall(file, hasAppscript), file)
  {
    CarriesShell("dcop kdesktop KBackgroundIface setWallpaper 0 \"", file, "\" 6");
    CarriesShell("pcmanfm --set-wallpaper ", file, " --wallpaper-mode=scaled");
    CarriesShell("wmsetbg -s -u ", file, "");
    assert "wmsetbg -s -u " + file + "" == "wmsetbg -s -u " + file;
    CarriesShell("enlightenment_remote -desktop-bg-add 0 0 0 0 ", file, "");
    assert "enlightenment_remote -desktop-bg-add 0 0 0 0 " + file + ""
        == "enlightenment_remote -desktop-bg-add 0 0 0 0 " + file;
    if !hasAppscript {
      var pre := "/usr/bin/osascript<<END\n"
                 + "               tell application 'Finder' to\n"
                 + "               set desktop picture to POSIX file '";
      var post := "'\n" + "               end tell\n" + "               END";
      CarriesShell(pre, file, post);
      assert MacScript(file) == pre + file + post;
    }
  }

  /** The call of a branch that hands the image over (for MATE, the last one attempted). */
  function Carrier(t: DesktopEnv, file: string, host: Host): Action
    requires !(t.Kde? || t.RazorQt? || t.Unknown?)
  {
    match t
    case Mate => if host.raises(MateCall(file)) then MateLegacyCall(file) else MateCall(file)
    case Xfce4 => XfceCalls(file, true)[0]
    case Fluxbox | Jwm | Openbox | Afterstep => FbsetbgCall(file)
    case Gnome | Unity | Cinnamon | Gnome2 | Kde3 | Trinity | Icewm | Blackbox | Lxde
       | WindowMaker | Enlightenment | Windows | Mac => OnlyCall(t, file, host)
  }

  lemma CarrierAttempted(t: DesktopEnv, file: string, host: Host)
    requires Apply(t, file, host).Returned()
    requires t != Kde && t != RazorQt
    requires t == Xfce4 ==> host.firstRun == Some(true)
    ensures Carrier(t, file, host) in Apply(t, file, host).attempted
  {
  }

  /**
    Every successful branch that acts at all passes the image path to some
    call; the exceptions are kde, razor-qt, and xfce4 after its first run,
    which only reloads.
   */
  lemma SuccessCarriesFile(t: DesktopEnv, file: string, host: Host)
    requires Apply(t, file, host).Returned()
    requires t != Kde && t != RazorQt
    requires t == Xfce4 ==> host.firstRun == Some(true)
    ensures exists a :: a in Apply(t, file, host).attempted && Carries(a, file)
  {
    CarrierAttempted(t, file, host);
    if t.Kde3? || t.Trinity? || t.Lxde? || t.WindowMaker? || t.Enlightenment? || t.Mac? {
      ShellCarrierCarries(t, file, host);
    } else {
      SpawnCarrierCarries(t, file, host);
    }
  }

  lemma ShellCarrierCarries(t: DesktopEnv, file: string, host: Host)
    requires t.Kde3? || t.Trinity? || t.Lxde? || t.WindowMaker? || t.Enlightenment? || t.Mac?
    ensures Carries(Carrier(t, file, host), file)
  {
    ShellCallsCarry(file, host.hasAppscript);
    match t
    case Kde3 | Trinity => assert Carrier(t, file, host) == DcopCall(file);
    case Lxde => assert Carrier(t, file, host) == LxdeCall(file);
    case WindowMaker => assert Carrier(t, file, host) == WindowMakerCall(file);
    case Enlightenment => assert Carrier(t, file, host) == EnlightenmentCall(file);
    case Mac => assert Carrier(t, file, host) == MacCall(file, host.hasAppscript);
  }

  lemma SpawnCarrierCarries(t: DesktopEnv, file: string, host: Host)
    requires t.Gnome? || t.Unity? || t.Cinnamon? || t.Mate? || t.Gnome2? || t.Xfce4? || t.Fluxbox?
             || t.Jwm? || t.Openbox? || t.Afterstep? || t.Icewm? || t.Blackbox? || t.Windows?
    ensures Carries(Carrier(t, file, host), file)
  {
    var c := Carrier(t, file, host);
    match t
    case Gnome | Unity | Cinnamon =>
      assert c == GnomeCall(file);
      CarriesArg(c.argv, 4, "file://", file);
    case Mate =>
      CarriesArg(MateCall(file).argv, 4, "", file);
      CarriesArg(MateLegacyCall(file).argv, 5, "", file);
    case Gnome2 =>
      assert c == Gnome2Call(file);
      CarriesArg(c.argv, 5, "", file);
    case Xfce4 =>
      CarriesArg(c.argv, 6, "", file);
    case Fluxbox | Jwm | Openbox | Afterstep =>
      assert c == FbsetbgCall(file);
      CarriesArg(c.argv, 1, "", file);
    case Icewm =>
      assert c == IcewmCall(file);
      CarriesArg(c.argv, 1, "", file);
    case Blackbox =>
      assert c == BlackboxCall(file);
      CarriesArg(c.argv, 2, "", file);
    case Windows =>
      assert c == WindowsCall(file);
  }
}

=== FILE: strings.dfy ===
/**
  String helpers shared by the desktop classifier, the wallpaper dispatcher
  and the weather file naming: ASCII lower-casing, prefix and substring tests
  with Python's `startswith` / `in` meaning, and POSIX `os.path.join`.
 */
module Strings {

  /** Option, for the values Python reads with `dict.get` (None when absent). */
  datatype Option<+T> = None | Some(value: T)

  /** Python `str.lower` restricted to ASCII letters. */
  function LowerChar(c: char): char
  {
    if 'A' <= c <= 'Z' then (c as int - 'A' as int + 'a' as int) as char else c
  }

  function Lower(s: string): (r: string)
    ensures |r| == |s|
    ensures forall i :: 0 <= i < |s| ==> r[i] == LowerChar(s[i])
  {
    if s == [] then [] else [LowerChar(s[0])] + Lower(s[1..])
  }

  /** `s.startswith(p)` */
  predicate StartsWith(s: string, p: string)
  {
    |p| <= |s| && s[..|p|] == p
  }

  /** `s.endswith(p)` */
  predicate EndsWith(s: string, p: string)
  {
    |p| <= |s| && s[|s| - |p|..] == p
  }

  /** Python's `w in s` on strings: `w` occurs somewhere in `s`. */
  predicate Contains(s: string, w: string)
    decreases |s|
  {
    StartsWith(s, w) || (|s| > 0 && Contains(s[1..], w))
  }

  /** `w` is the slice of `s` that starts at position `i`. */
  predicate OccursAt(s: string, w: string, i: int)
  {
    0 <= i <= |s| - |w| && s[i..i + |w|] == w
  }

  /** `w` occurs in `s` exactly when it is the slice of `s` at some position. */
  lemma {:induction false} ContainsAt(s: string, w: string)
    ensures Contains(s, w) <==> exists i :: OccursAt(s, w, i)
    decreases |s|
  {
    if Contains(s, w) {
      if StartsWith(s, w) {
        assert OccursAt(s, w, 0);
      } else {
        ContainsAt(s[1..], w);
        var i :| OccursAt(s[1..], w, i);
        assert s[i + 1..i + 1 + |w|] == s[1..][i..i + |w|];
        assert OccursAt(s, w, i + 1);
      }
    }
    if exists i :: OccursAt(s, w, i) {
      var i :| OccursAt(s, w, i);
      if i == 0 {
        assert StartsWith(s, w);
      } else {
        assert s[1..][i - 1..i - 1 + |w|] == s[i..i + |w|];
        assert OccursAt(s[1..], w, i - 1);
        ContainsAt(s[1..], w);
      }
    }
  }

  /** Whatever surrounds it, a string contains itself. */
  lemma {:induction false} ContainsInfix(a: string, w: string, b: string)
    ensures Contains(a + w + b, w)
  {
    assert (a + w + b)[|a|..|a| + |w|] == w;
    assert OccursAt(a + w + b, w, |a|);
    ContainsAt(a + w + b, w);
  }

  /**
    POSIX `os.path.join(a, b)`: an absolute `b` replaces `a`; otherwise a
    separator is inserted unless `a` is empty or already ends with one.
   */
  function PathJoin(a: string, b: string): (r: string)
    ensures StartsWith(b, "/") ==> r == b
    ensures !StartsWith(b, "/") ==> StartsWith(r, a) && EndsWith(r, b)
    ensures !StartsWith(b, "/") ==> |r| - |a| - |b| == (if a == [] || EndsWith(a, "/") then 0 else 1)
  {
    if StartsWith(b, "/") then b
    else if a == [] || EndsWith(a, "/") then a + b
    else a + "/" + b
  }
}

=== FILE: weather_desk.dfy ===
/**
  The naming side of WeatherDesk.py: which wallpaper file a weather phrase
  and the hour select, and which files must exist before the polling loop
  starts. The clock hour, the image-format argument, the wallpaper directory
  and the file-existence test are parameters.
 */
module WeatherDesk {
  import opened Strings

  /** The time-of-day labels used as file-name prefixes. */
  datatype Moment = Morning | Day | Evening | Night
  {
    function Name(): string
    {
      match this
      case Morning => "morning"
      case Day => "day"
      case Evening => "evening"
      case Night => "night"
    }
  }

  /**
    `get_time_of_day(level)` at the given hour: level 3 splits the day into
    day 6-16, evening 17-19, night otherwise; level 4 carves morning 6-7 out
    of the day; every other level has only day 6-19 and night.
   */
  function TimeOfDay(level: int, hour: int): (m: Moment)
    ensures m == Morning ==> level == 4
    ensures m == Evening ==> level == 3 || level == 4
    ensures m == Night <==> hour < 6 || 20 <= hour
  {
    if level == 3 then
      if 6 <= hour < 17 then Day
      else if 17 <= hour < 20 then Evening
      else Night
    else if level == 4 then
      if 6 <= hour < 8 then Morning
      else if 8 <= hour < 17 then Day
      else if 17 <= hour < 20 then Evening
      else Night
    else
      if 6 <= hour < 20 then Day
      else Night
  }

  /** The level-3 bands. */
  lemma Level3Bands(hour: int)
    ensures TimeOfDay(3, hour) == Day <==> 6 <= hour <= 16
    ensures TimeOfDay(3, hour) == Evening <==> 17 <= hour <= 19
    ensures TimeOfDay(3, hour) == Night <==> !(6 <= hour <= 19)
  {
  }

  /** Level 4 refines level 3: it differs only at 6 and 7 o'clock, where it says morning for day. */
  lemma Level4RefinesLevel3(hour: int)
    ensures TimeOfDay(4, hour) != TimeOfDay(3, hour) <==> 6 <= hour <= 7
    ensures 6 <= hour <= 7 ==> TimeOfDay(4, hour) == Morning && TimeOfDay(3, hour) == Day
  {
  }

  /** Any level other than 3 or 4 (the source's level 2) is day from 6 to 19 and night otherwise. */
  lemma OtherLevelsDayNight(level: int, hour: int)
    requires level != 3 && level != 4
    ensures TimeOfDay(level, hour) == (if 6 <= hour <= 19 then Day else Night)
  {
  }

  /** The time-of-day labels `check_if_all_files_exist` expects for a level. */
  function Daytime(level: int): (ms: seq<Moment>)
    ensures 2 <= |ms| <= 4
  {
    if level == 3 then [Day, Evening, Night]
    else if level == 4 then [Morning, Day, Evening, Night]
    else [Day, Night]
  }

  /** Whatever the level and hour, the label chosen is one the file check expects. */
  lemma TimeOfDayExpected(level: int, hour: int)
    ensures TimeOfDay(level, hour) in Daytime(level)
  {
  }

  /** Every label the file check expects is reached at some hour of the day. */
  lemma DaytimeReached(level: int, m: Moment)
    requires m in Daytime(level)
    ensures exists hour :: 0 <= hour < 24 && TimeOfDay(level, hour) == m
  {
    var hour := match m case Morning => 6 case Day => 12 case Evening => 18 case Night => 0;
    assert TimeOfDay(level, hour) == m;
  }

  /**
    The `summaries` table in its iteration order (insertion order of the
    dict literal), with each keyword string already split at whitespace.
   */
  const SummaryTable: seq<(string, seq<string>)> :=
    [("rain", ["drizzle", "rain", "shower"]),
     ("wind", ["breez", "gale", "wind"]),
     ("thunder", ["thunder"]),
     ("snow", ["snow"]),
     ("cloudy", ["cloud"])]

  /** The summary used when no keyword occurs. */
  const NoMatchSummary: string := "normal"

  /** The weather stems of `required_files`, in the source's order. */
  const RequiredStems: seq<string> := ["rain", "snow", "normal", "cloudy", "wind", "thunder"]

  /** Some keyword of `words` occurs in the weather phrase. */
  predicate AnyKeyword(words: seq<string>, weather: string)
  {
    exists k :: 0 <= k < |words| && Contains(weather, words[k])
  }

  /** Entry `i` of the table matches the weather phrase. */
  predicate EntryMatches(i: int, weather: string)
    requires 0 <= i < |SummaryTable|
  {
    AnyKeyword(SummaryTable[i].1, weather)
  }

  /** First match over a suffix of the table: the key of the first entry with a keyword in `weather`. */
  function FirstMatch(table: seq<(string, seq<string>)>, weather: string): string
    decreases |table|
  {
    if table == [] then NoMatchSummary
    else if AnyKeyword(table[0].1, weather) then table[0].0
    else FirstMatch(table[1..], weather)
  }

  /** `get_weather_summary` for the phrase `weather`. */
  function SummaryOf(weather: string): (r: string)
    ensures r in RequiredStems
    ensures r != NoMatchSummary ==>
            exists i :: 0 <= i < |SummaryTable| && r == SummaryTable[i].0 && EntryMatches(i, weather)
  {
    FirstMatchIndex(SummaryTable, weather);
    assert forall i :: 0 <= i < |SummaryTable| ==> SummaryTable[i].0 in RequiredStems;
    FirstMatch(SummaryTable, weather)
  }

  /** First-match over any table, stated by index. */
  lemma {:induction false} FirstMatchIndex(table: seq<(string, seq<string>)>, weather: string)
    ensures var r := FirstMatch(table, weather);
            || (r == NoMatchSummary && forall j :: 0 <= j < |table| ==> !AnyKeyword(table[j].1, weather))
            || (exists i :: 0 <= i < |table| && r == table[i].0 && AnyKeyword(table[i].1, weather)
                 && forall j :: 0 <= j < i ==> !AnyKeyword(table[j].1, weather))
    ensures (exists i :: 0 <= i < |table| && AnyKeyword(table[i].1, weather)) ==>
            exists i :: 0 <= i < |table| && FirstMatch(table, weather) == table[i].0
                        && AnyKeyword(table[i].1, weather)
                        && forall j :: 0 <= j < i ==> !AnyKeyword(table[j].1, weather)
    decreases |table|
  {
    if table != [] && !AnyKeyword(table[0].1, weather) {
      FirstMatchIndex(table[1..], weather);
      var tail := table[1..];
      if exists i :: 0 <= i < |tail| && FirstMatch(tail, weather) == tail[i].0
                     && AnyKeyword(tail[i].1, weather)
                     && forall j :: 0 <= j < i ==> !AnyKeyword(tail[j].1, weather) {
        var i :| 0 <= i < |tail| && FirstMatch(tail, weather) == tail[i].0
                 && AnyKeyword(tail[i].1, weather)
                 && forall j :: 0 <= j < i ==> !AnyKeyword(tail[j].1, weather);
        assert table[i + 1] == tail[i];
        assert forall j :: 0 <= j < i + 1 ==> !AnyKeyword(table[j].1, weather) by {
          forall j | 0 <= j < i + 1 ensures !AnyKeyword(table[j].1, weather) {
            if j > 0 { assert table[j] == tail[j - 1]; }
          }
        }
      } else {
        assert forall j :: 0 <= j < |table| ==> !AnyKeyword(table[j].1, weather) by {
          forall j | 0 <= j < |table| ensures !AnyKeyword(table[j].1, weather) {
            if j > 0 { assert table[j] == tail[j - 1]; }
          }
        }
      }
    }
  }

  /**
    The summary is the key of the first table entry, in the order rain, wind,
    thunder, snow, cloudy, one of whose keywords occurs in the phrase; it is
    `normal` exactly when no keyword occurs.
   */
  lemma SummaryFirstMatch(weather: string)
    ensures SummaryOf(weather) == NoMatchSummary <==> forall j :: 0 <= j < |SummaryTable| ==> !EntryMatches(j, weather)
    ensures SummaryOf(weather) != NoMatchSummary ==>
            exists i :: 0 <= i < |SummaryTable| && SummaryOf(weather) == SummaryTable[i].0
                        && EntryMatches(i, weather)
                        && forall j :: 0 <= j < i ==> !EntryMatches(j, weather)
    ensures SummaryOf(weather) in RequiredStems
  {
    FirstMatchIndex(SummaryTable, weather);
    assert forall i :: 0 <= i < |SummaryTable| ==> SummaryTable[i].0 != NoMatchSummary && SummaryTable[i].0 in RequiredStems;
    assert forall j :: 0 <= j < |SummaryTable| ==> (EntryMatches(j, weather) <==> AnyKeyword(SummaryTable[j].1, weather));
  }

  /** Each character of a string that occurs in `s` is a character of `s`. */
  lemma {:induction false} ContainsChars(s: string, w: string, k: int)
    requires Contains(s, w) && 0 <= k < |w|
    ensures w[k] in s
  {
    ContainsAt(s, w);
    var i :| OccursAt(s, w, i);
    assert s[i + k] == w[k];
  }

  /**
    `breezy` is wind, through the stem `breez`. The phrase is a parameter
    fixed by the precondition so that the verifier reasons about the keyword
    tests step by step instead of evaluating the whole table on a literal.
   */
  lemma BreezyIsWind(b: string)
    requires b == "breezy"
    ensures SummaryOf(b) == "wind"
  {
    if Contains(b, "drizzle") { ContainsChars(b, "drizzle", 0); }
    if Contains(b, "rain") { ContainsChars(b, "rain", 1); }
    if Contains(b, "shower") { ContainsChars(b, "shower", 0); }
    assert !AnyKeyword(SummaryTable[0].1, b);
    assert StartsWith(b, "breez");
    assert Contains(b, SummaryTable[1].1[0]);
    assert AnyKeyword(SummaryTable[1].1, b);
  }

  /**
    Rain is tested before thunder, so a phrase with both is rain. As in
    `BreezyIsWind`, the phrase is a parameter fixed by the precondition.
   */
  lemma ThunderAndRainIsRain(t: string)
    requires t == "thunder and rain"
    ensures SummaryOf(t) == "rain"
  {
    assert OccursAt(t, "rain", 12);
    ContainsAt(t, "rain");
    assert Contains(t, SummaryTable[0].1[1]);
    assert AnyKeyword(SummaryTable[0].1, t);
  }

  /** The nested loop of `get_weather_summary`: entries in order, keywords in order. */
  method GetWeatherSummary(weather: string) returns (summary: string)
    ensures summary == SummaryOf(weather)
  {
    var i := 0;
    while i < |SummaryTable|
      invariant 0 <= i <= |SummaryTable|
      invariant FirstMatch(SummaryTable, weather) == FirstMatch(SummaryTable[i..], weather)
    {
      var words := SummaryTable[i].1;
      var k := 0;
      while k < |words|
        invariant 0 <= k <= |words|
        invariant forall j :: 0 <= j < k ==> !Contains(weather, words[j])
      {
        if Contains(weather, words[k]) {
          summary := SummaryTable[i].0;
          return;
        }
        k := k + 1;
      }
      assert SummaryTable[i..][1..] == SummaryTable[i + 1..];
      i := i + 1;
    }
    summary := NoMatchSummary;
  }

  /**
    `get_file_name`: the summary plus the format, prefixed with the time of
    day and a dash when time-of-day variants are in use.
   */
  function FileName(weather: string, useTime: bool, level: int, hour: int, format: string): (r: string)
    ensures !useTime ==> r == SummaryOf(weather) + format
    ensures useTime ==> r == TimeOfDay(level, hour).Name() + "-" + SummaryOf(weather) + format
    ensures EndsWith(r, format)
  {
    if useTime then TimeOfDay(level, hour).Name() + "-" + SummaryOf(weather) + format
    else SummaryOf(weather) + format
  }

  /** `[m + '-' + s for m in moments for s in stems]`, moment-major. */
  function Prefixed(moments: seq<Moment>, stems: seq<string>): (r: seq<string>)
    ensures |r| == |moments| * |stems|
    decreases |moments|
  {
    if moments == [] then []
    else
      assert |moments| * |stems| == |stems| + (|moments| - 1) * |stems|;
      seq(|stems|, j requires 0 <= j < |stems| => moments[0].Name() + "-" + stems[j])
      + Prefixed(moments[1..], stems)
  }

  /** Entry `i * |stems| + j` of the product pairs moment `i` with stem `j`. */
  lemma {:induction false} PrefixedAt(moments: seq<Moment>, stems: seq<string>, i: int, j: int)
    requires 0 <= i < |moments| && 0 <= j < |stems|
    ensures 0 <= i * |stems| + j < |Prefixed(moments, stems)|
    ensures Prefixed(moments, stems)[i * |stems| + j] == moments[i].Name() + "-" + stems[j]
    decreases |moments|
  {
    var n := |stems|;
    var head := seq(n, j requires 0 <= j < n => moments[0].Name() + "-" + stems[j]);
    assert Prefixed(moments, stems) == head + Prefixed(moments[1..], stems);
    if i == 0 {
      assert (head + Prefixed(moments[1..], stems))[j] == head[j];
    } else {
      PrefixedAt(moments[1..], stems, i - 1, j);
      var k := (i - 1) * n + j;
      assert k + n == i * n + j by {
        assert (i - 1) * n == i * n - n;
      }
      assert (head + Prefixed(moments[1..], stems))[k + n] == Prefixed(moments[1..], stems)[k];
    }
  }

  /** Every entry of the product is some moment's name, a dash, and some stem. */
  lemma {:induction false} PrefixedMembers(moments: seq<Moment>, stems: seq<string>, f: string)
    requires f in Prefixed(moments, stems)
    ensures exists i, j :: 0 <= i < |moments| && 0 <= j < |stems| && f == moments[i].Name() + "-" + stems[j]
    decreases |moments|
  {
    var head := seq(|stems|, j requires 0 <= j < |stems| => moments[0].Name() + "-" + stems[j]);
    if f in head {
      var j :| 0 <= j < |stems| && head[j] == f;
      assert f == moments[0].Name() + "-" + stems[j];
    } else {
      PrefixedMembers(moments[1..], stems, f);
      var i, j :| 0 <= i < |moments[1..]| && 0 <= j < |stems| && f == moments[1..][i].Name() + "-" + stems[j];
      assert moments[1..][i] == moments[i + 1];
    }
  }

  /** The stems `check_if_all_files_exist` requires, before the format is appended. */
  function RequiredFiles(useTime: bool, level: int): (r: seq<string>)
    ensures |r| == if useTime then 6 * |Daytime(level)| else 6
    ensures !useTime ==> r == RequiredStems
  {
    if useTime then Prefixed(Daytime(level), RequiredStems) else RequiredStems
  }

  /**
    Without time the list is the six stems; with time it has one block of the
    six stems per label of the level, in label order.
   */
  lemma RequiredFilesShape(useTime: bool, level: int)
    ensures !useTime ==> RequiredFiles(useTime, level) == RequiredStems && |RequiredFiles(useTime, level)| == 6
    ensures useTime ==> |RequiredFiles(useTime, level)| == 6 * |Daytime(level)|
    ensures useTime ==> forall i, j :: 0 <= i < |Daytime(level)| && 0 <= j < 6 ==>
              RequiredFiles(useTime, level)[i * 6 + j] == Daytime(level)[i].Name() + "-" + RequiredStems[j]
  {
    if useTime {
      forall i, j | 0 <= i < |Daytime(level)| && 0 <= j < 6
        ensures RequiredFiles(useTime, level)[i * 6 + j] == Daytime(level)[i].Name() + "-" + RequiredStems[j]
      {
        PrefixedAt(Daytime(level), RequiredStems, i, j);
      }
    }
  }

  /**
    The file `get_file_name` picks is always one of the files that
    `check_if_all_files_exist` required, for the same time flag and level.
   */
  lemma FileNameRequired(weather: string, useTime: bool, level: int, hour: int, format: string)
    ensures exists f :: f in RequiredFiles(useTime, level) && FileName(weather, useTime, level, hour, format) == f + format
  {
    var s := SummaryOf(weather);
    SummaryFirstMatch(weather);
    var j :| 0 <= j < |RequiredStems| && RequiredStems[j] == s;
    if useTime {
      var m := TimeOfDay(level, hour);
      TimeOfDayExpected(level, hour);
      var i :| 0 <= i < |Daytime(level)| && Daytime(level)[i] == m;
      PrefixedAt(Daytime(level), RequiredStems, i, j);
      var f := RequiredFiles(useTime, level)[i * 6 + j];
      assert f in RequiredFiles(useTime, level);
      assert FileName(weather, useTime, level, hour, format) == f + format;
    } else {
      assert RequiredStems[j] in RequiredFiles(useTime, level);
    }
  }

  /** The full path checked for one required stem. */
  function RequiredPath(dir: string, stem: string, format: string): string
  {
    PathJoin(dir, stem + format)
  }

  /** The paths of `stems` that `isFile` rejects, in the order of `stems`. */
  function MissingPaths(dir: string, stems: seq<string>, format: string, isFile: string -> bool): seq<string>
    decreases |stems|
  {
    if stems == [] then []
    else
      var path := RequiredPath(dir, stems[|stems| - 1], format);
      MissingPaths(dir, stems[..|stems| - 1], format, isFile) + (if isFile(path) then [] else [path])
  }

  /**
    The filtered list holds exactly the rejected paths, is no longer than the
    stems, and is empty exactly when every path is accepted.
   */
  lemma {:induction false} MissingPathsMembers(dir: string, stems: seq<string>, format: string, isFile: string -> bool)
    ensures forall p :: p in MissingPaths(dir, stems, format, isFile) <==>
              exists k :: 0 <= k < |stems| && p == RequiredPath(dir, stems[k], format) && !isFile(p)
    ensures |MissingPaths(dir, stems, format, isFile)| <= |stems|
    ensures MissingPaths(dir, stems, format, isFile) == [] <==>
              forall k :: 0 <= k < |stems| ==> isFile(RequiredPath(dir, stems[k], format))
    decreases |stems|
  {
    if stems != [] {
      var init := stems[..|stems| - 1];
      MissingPathsMembers(dir, init, format, isFile);
      assert forall k :: 0 <= k < |init| ==> init[k] == stems[k];
    }
  }

  /**
    The lookup loop of `check_if_all_files_exist` over a list of stems:
    each path is tested with `isFile` (standing for `os.path.isfile`), the
    missing ones are collected in order, and the flag says whether none was.
   */
  method LookUpAll(dir: string, stems: seq<string>, format: string, isFile: string -> bool)
    returns (allExist: bool, missing: seq<string>)
    ensures allExist <==> forall k :: 0 <= k < |stems| ==> isFile(RequiredPath(dir, stems[k], format))
    ensures forall p :: p in missing <==>
              exists k :: 0 <= k < |stems| && p == RequiredPath(dir, stems[k], format) && !isFile(p)
    ensures allExist <==> missing == []
    ensures |missing| <= |stems|
    ensures missing == MissingPaths(dir, stems, format, isFile)
  {
    allExist := true;
    missing := [];
    var n := 0;
    while n < |stems|
      invariant 0 <= n <= |stems|
      invariant missing == MissingPaths(dir, stems[..n], format, isFile)
      invariant allExist <==> missing == []
    {
      assert stems[..n + 1][..n] == stems[..n];
      var path := RequiredPath(dir, stems[n], format);
      if !isFile(path) {
        allExist := false;
        missing := missing + [path];
      }
      n := n + 1;
    }
    assert stems[..n] == stems;
    MissingPathsMembers(dir, stems, format, isFile);
  }

  /** `check_if_all_files_exist`: looks up every required file in `dir`. */
  method CheckIfAllFilesExist(dir: string, useTime: bool, level: int, format: string, isFile: string -> bool)
    returns (allExist: bool, missing: seq<string>)
    ensures allExist <==> forall f :: f in RequiredFiles(useTime, level) ==> isFile(RequiredPath(dir, f, format))
    ensures forall p :: p in missing <==>
              exists f :: f in RequiredFiles(useTime, level) && p == RequiredPath(dir, f, format) && !isFile(p)
    ensures allExist <==> missing == []
    ensures missing == MissingPaths(dir, RequiredFiles(useTime, level), format, isFile)
  {
    var required := RequiredFiles(useTime, level);
    allExist, missing := LookUpAll(dir, required, format, isFile);
    forall p | p in missing
      ensures exists f :: f in required && p == RequiredPath(dir, f, format) && !isFile(p)
    {
      var k :| 0 <= k < |required| && p == RequiredPath(dir, required[k], format) && !isFile(p);
      assert required[k] in required;
    }
  }

  /**
    The image format: a given format gets a leading dot if it lacks one; no
    format (or an empty one, which Python treats as false) means `.jpg`.
   */
  function NormaliseFormat(format: Option<string>): (r: string)
    ensures StartsWith(r, ".")
    ensures format.None? || format == Some("") ==> r == ".jpg"
    ensures format.Some? && format.value != "" ==>
            (r == format.value <==> StartsWith(format.value, ".")) && EndsWith(r, format.value)
    ensures format.Some? && format.value != "" ==> |r| <= |format.value| + 1
  {
    match format
    case None => ".jpg"
    case Some(f) =>
      if f == "" then ".jpg"
      else if StartsWith(f, ".") then f
      else "." + f
  }

  /** Normalising is idempotent: a normalised format is left unchanged. */
  lemma NormaliseIdempotent(format: Option<string>)
    ensures NormaliseFormat(Some(NormaliseFormat(format))) == NormaliseFormat(format)
  {
  }

  /** The main loop's wallpaper path is one of the paths the startup check looked up. */
  lemma ChosenPathChecked(dir: string, weather: string, useTime: bool, level: int, hour: int, format: string)
    ensures exists f :: f in RequiredFiles(useTime, level) &&
              PathJoin(dir, FileName(weather, useTime, level, hour, format)) == RequiredPath(dir, f, format)
  {
    FileNameRequired(weather, useTime, level, hour, format);
  }
}
